=== FILE: README.md ===
# Math Quest front end: a Dafny model of its decision and bookkeeping layer

Math Quest is a browser maths quiz with two pages. The homepage (`script.js`) asks
for a player name. The game page uses a UI helper object (`game-ui.js`). Most of
both files is styling, timers and animation frames. This project models the logic
underneath and proves what it promises. The document, local storage, the clock and
the timers become explicit state, parameters and events.

The homepage logic covered:

- the name field's `input` sanitiser, the `submit` validator, the start-button
  predicate and its style, `getPlayerName` and `clearPlayerData`;
- `showMessage`, which replaces every message, and its two timers, the second of
  which is guarded;
- the motivational ticker, which shows a line only when no message is attached;
- the `keydown` shortcuts (Enter, Escape, `n`).

The game-page logic covered:

- the `keydown` dispatch (`p`, `h`, Escape and the digits 1 to 4);
- `handleNumberKey`, where difficulty buttons take precedence over option buttons;
- the milestone toasts, and the toasts' class, background, timers and phases;
- the `animations` map with the `<style>` nodes it attaches to the head.

Both pages share the click-particle lifecycle. A burst creates a fixed number of
particles, one per angle index. Each particle is restyled on every frame until the
first frame that is 1000 ms after its start. On that frame it is removed, exactly
once.

Modules:

- `Sequences`: subsequences of a sequence, and their transitivity.
- `Utf16`: code units, ECMAScript white space and `trim`.
- `Keys`: `toLowerCase` on key names.
- `Palette`: the four gradients.
- `Dom`: node lists and `remove()`.
- `PlayerName`: the name pipeline.
- `Particles`: the particle layer class and its frame trace.
- `Homepage`: a class, `HomeDocument`, for the homepage document.
- `GameUi`: the pure game-page decisions and a `GameUI` class.
- `Wrappers`: `Option`.

Strings a user types are UTF-16 code units. The sanitiser's regular expression has
no `u` flag, so it drops both halves of a surrogate pair. `\s` and `trim` use the
ECMAScript WhiteSpace and LineTerminator sets (clauses 12.2 and 12.3 of the
ECMAScript Language Specification).

## Model

| member | source | states |
|---|---|---|
| Utf16.Trim | script.js:78 | `trim()` gives the slice of the value between its leading and trailing white space. The slice starts and ends with a non-white-space unit. It is empty exactly when the value is all white space. A value without white space at its ends is unchanged. |
| Utf16.TrimIdempotent | script.js:143 | Trimming a trimmed value changes nothing. |
| Utf16.TrimUnitsFromSource | script.js:78 | Each unit of the trimmed value is the unit of the value at the same place after the removed prefix. |
| Utf16.TrimIsSubsequence | script.js:78 | The trimmed value is an order-preserving subsequence of the value. |
| Keys.LowerAscii | script.js:318 | `toLowerCase` keeps the length and lowers each ASCII capital by 32. |
| Keys.LowerIsLetter | script.js:318 | A key lowers to a one-letter string exactly when it is that letter or its capital, so the `n` test accepts exactly `n` and `N`. |
| Keys.LowerIsDigit | game-ui.js:61-66 | A key lowers to a digit exactly when it is that digit. |
| Palette.GradientsDistinct | game-ui.js:369-374 | The four background gradients are pairwise different. |
| Dom.Detach | script.js:161 | `remove()` of one node, by id: no node with that id is left, every node with another id stays, and the list never grows. Order is kept, as `DetachConcat` and `DetachAt` state. |
| Dom.DetachAbsent | script.js:224-226 | Removing a node that is not attached leaves the list unchanged. |
| Dom.DetachKeepsIncreasing | game-ui.js:503 | Removing a node keeps the remaining nodes in creation order. |
| Dom.DetachAt | game-ui.js:503 | When ids are unique, removal by the id of the node at position `k` takes out exactly that node. |
| Dom.Restyle | script.js:222 | Setting the exit animation changes only the node with that id. |
| PlayerName.KeepNameUnits | script.js:113 | The regular-expression filter keeps only letters, digits, white space, `-` and `_`, and never lengthens the value. |
| PlayerName.KeepNameUnitsIsSubsequence | script.js:113 | The filtered value is an order-preserving subsequence of the raw value. |
| PlayerName.KeepNameUnitsCounts | script.js:113 | Every occurrence of a name unit is kept, and every other unit occurs zero times. |
| PlayerName.KeepNameUnitsFixed | script.js:113 | The filter leaves a value unchanged exactly when the value holds only name units. |
| PlayerName.Sanitise | script.js:110-120 | The sanitised value has at most 20 units. Every unit is a name unit and none is a surrogate half. Its length is the smaller of the filtered length and 20. It is a prefix of the filtered value. |
| PlayerName.SanitiseIsSubsequence | script.js:113-118 | The sanitised value is an order-preserving subsequence of what was typed. |
| PlayerName.SanitiseShortIsFiltered | script.js:116-118 | When the filtered value has 20 units or fewer, the cut changes nothing. |
| PlayerName.SanitiseIdempotent | script.js:110-120 | Running the input handler on its own output leaves the field unchanged. |
| PlayerName.CheckName | script.js:78-90 | The result is TooShort exactly when the trimmed length is below 2. It is TooLong exactly when the trimmed length is 2 or more and above 20, so the short check comes first. It is Accepted, carrying the trimmed value, exactly for trimmed lengths 2 to 20. |
| PlayerName.AcceptedNameIsTrimmed | script.js:78-93 | An accepted name has 2 to 20 units, no white space at either end, and is its own trim. |
| PlayerName.SanitisedNameNeverTooLong | script.js:86-90 | A value produced by the input handler never draws the "too long" warning. |
| PlayerName.SanitisedNameFromTyped | script.js:93 | A name accepted from a sanitised value consists of name units and is a subsequence of what was typed. |
| PlayerName.StartButtonEnabled | script.js:143 | The button is enabled exactly when submit would not say "too short". |
| PlayerName.StartButtonStyle | script.js:145-153 | Pointer events are on, and opacity is 100%, exactly when the button is enabled. Enabled gives opacity 1 and scale 1; disabled gives 0.6 and 0.95. |
| PlayerName.GetPlayerName | script.js:445-447 | The result is never empty. It is the stored name when that is present and non-empty, and "Anonymous Hero" otherwise. |
| PlayerName.StoredNameReadBack | script.js:93 | A name stored by submit is the name `getPlayerName` returns. |
| PlayerName.ClearedNameIsDefault | script.js:451 | After the key is removed, `getPlayerName` returns the default. |
| Particles.Trace | script.js:368-389 | A particle's frame callbacks yield one outcome per frame. The first outcome is a removal exactly when that frame is expired. |
| Particles.TraceRemovesAtFirstExpiry | game-ui.js:140-157 | The particle is removed at frame `k` exactly when `k` is the first expired frame. It is restyled exactly at frames up to and including `k` when none of them is expired. Nothing happens to it exactly after an earlier expired frame. |
| Particles.RemovedAtMostOnce | game-ui.js:145-148 | No particle is removed at two different frames. |
| Particles.ParticleLayer.Burst | script.js:344-389 | Each call creates one fresh node per clock reading. The node at step `i` has angle index `i`, the burst size and clock reading `i`, and has not yet been restyled. Nodes already attached are untouched. Every attached node has exactly one waiting callback. |
| Particles.ParticleLayer.Frame | game-ui.js:140-157 | An expired frame detaches the node and requests no new frame, and the removal is logged once. Any other frame restyles the node and requests the next frame. A node with no waiting callback is never touched again. |
| Particles.ParticleLayer.RunFrames | game-ui.js:140-157 | Running a node's callback over successive frames yields exactly the outcomes `Trace` gives for its start time. A node with no waiting callback yields only idle frames. The node stays attached exactly when none of the readings is expired; otherwise its removal is logged once. No other node is touched. |
| Homepage.MessageClass | script.js:165 | The class is `game-message game-message-` followed by the type. |
| Homepage.MessageBackground | script.js:174-176 | The background is the success gradient exactly for `success` and the warning gradient exactly for `warning`. Every other type, `error` included, gets the info gradient. |
| Homepage.HomeKeyActions | script.js:298-324 | Enter in the focused field dispatches submit exactly when the form exists. Escape clears, refocuses and restyles exactly when the field exists. `n`/`N` outside the field focuses it. The default action is cancelled only for those keys. Every other key does nothing. |
| Homepage.HomeDocument.UpdateStartButtonState | script.js:138-155 | When both the field and the button exist, the button's style becomes the style for the current value. Otherwise nothing changes. |
| Homepage.HomeDocument.OnInput | script.js:109-124 | With the form wired, the field ends as the sanitised typed value and the button is restyled. Without it, the field keeps what was typed. |
| Homepage.HomeDocument.FocusChanged | script.js:302-318 | The user moving the focus into or out of the name field sets the focus the key handler tests. Only an existing field can be focused. |
| Homepage.HomeDocument.ShowMessage | script.js:158-218 | The attached messages are removed one by one; the loop is proved for any number of them, and the page invariant keeps that number at most one. Afterwards exactly one message is attached: the new one, with a fresh id, the given type (default `info`) and the text. |
| Homepage.MessagePhaseAt | script.js:219-227 | A message is shown for 3000 ms, leaves for the next 500 ms, and is detached from then on, unless a later message replaced it first. |
| Homepage.MessageLifetime | script.js:219-227 | A message nobody replaces is attached for exactly 3500 ms, and its phases never go back. |
| Homepage.HomeDocument.BeginMessageExit | script.js:221-222 | Only message `id` is marked as leaving. |
| Homepage.HomeDocument.ExpireMessage | script.js:223-227 | Message `id` is detached. Removal of a message that was already replaced changes nothing. |
| Homepage.HomeDocument.MotivationalTick | script.js:410-427 | A drawn line is shown as an `info` message, with the next message id, only when no message is attached. Otherwise nothing changes. |
| Homepage.HomeDocument.OnSubmit | script.js:75-106 | A trimmed value below 2 units gives the first warning and refocuses the field, and nothing is stored. One above 20 gives the second warning. Only a 2 to 20 unit name is stored under `mathQuestPlayerName`, welcomed, and the button is disabled and relabelled. |
| Homepage.HomeDocument.OnKeyDown | script.js:298-324 | The handler carries out HomeKeyActions: submit, clear with refocus and restyle, or focus. The state changes only as those actions say. |
| Homepage.HomeDocument.TransitionEnds | script.js:280-293 | When the start transition ends, a success message replaces any attached message. The start button, if present, is enabled again with its first label, and its style is kept. |
| Homepage.HomeDocument.ClearPlayerData | script.js:450-457 | The stored name is removed. The field is emptied and the button restyled when they exist. |
| Homepage.HomeDocument.CreateClickParticles | script.js:340-391 | A click attaches exactly 8 fresh particles, with angle indices 0 to 7, and nothing else. The existing particles are untouched, the id counter advances by 8, and the removal log is unchanged. |
| GameUi.RouteGameKey | game-ui.js:38-70 | A key whose target is an input does nothing. `p`/`P` toggles pause only when a game exists and is not paused. Escape toggles pause whenever a game exists. `h`/`H` shows help when a game exists. `1` to `4` call `handleNumberKey` with that digit, with or without a game. Every other key does nothing. |
| GameUi.EscapeResumesButPDoesNot | game-ui.js:43-59 | On a paused game, Escape toggles the pause and `p` does nothing. |
| GameUi.HandleNumberKey | game-ui.js:88-101 | Difficulty button `num-1` is clicked exactly when the welcome screen is active and has at least `num` buttons. Otherwise option button `num-1` is clicked exactly when the question screen is active and has at least `num` buttons. It throws exactly when a count test passes and the screen looked up next is missing, or is active while `num` is below 1 (no button at `num - 1`). Otherwise nothing happens. |
| GameUi.NumberKeysOnGamePage | game-ui.js:61-100 | On a page with both screens, a digit key never throws, and difficulty takes precedence over options. |
| GameUi.MilestoneMessage | game-ui.js:352-357 | A message exists exactly for 25, 50, 75 and 100. |
| GameUi.MilestoneMessagesDistinct | game-ui.js:352-357 | Different milestones have different messages. |
| GameUi.ToastClass | game-ui.js:366 | The class is `game-toast toast-` followed by the type. |
| GameUi.ToastBackground | game-ui.js:369-380 | `success`, `warning` and `error` get their own gradients. Names inherited from `Object.prototype` get no background. Every other type gets the info gradient. |
| GameUi.ToInt32 | game-ui.js:396 | The timeout is brought into the signed 32-bit range modulo 2^32, and is unchanged when it is already in range. |
| GameUi.TimerDelay | game-ui.js:393-396 | A timer waits the converted timeout, or 0 when that is not positive. An in-range non-negative duration is waited as given. |
| GameUi.ToastPhaseAt | game-ui.js:385-396 | A toast slides in until 500 ms or its exit time, whichever comes first. It slides out from its exit time for 500 ms and is gone afterwards. |
| GameUi.ToastPhasesInOrder | game-ui.js:393-396 | A toast's phases never go back. |
| GameUi.DefaultToastLifetime | game-ui.js:364-396 | A toast with the default duration is attached for exactly 3500 ms. |
| GameUi.EffectiveKeyframes | game-ui.js:489-498 | A name resolves to the keyframes of the last attached style node for it, and to none when no node defines it. |
| GameUi.ReaddedAnimationResurfaces | game-ui.js:489-506 | Adding a name twice and then removing it leaves the first keyframes in force. |
| GameUi.AddKeepsTable | game-ui.js:489-498 | `addAnimation` keeps every map entry pointing at a node attached to the head for that name, with node ids in creation order. |
| GameUi.AddOrphansEarlierNode | game-ui.js:489-498 | Re-adding a mapped name leaves the node added earlier attached to the head, while no entry of the updated map points to it any more. |
| GameUi.RemoveKeepsTable | game-ui.js:500-506 | `removeAnimation` of a mapped name keeps the remaining map entries and the head in agreement, with node ids in creation order. |
| GameUi.RemoveDetachesOneNode | game-ui.js:500-506 | `removeAnimation` of a mapped name takes out of the head exactly the one node its entry names and leaves every other node in place and in order. |
| GameUi.GameUI.AddAnimation | game-ui.js:489-498 | A new style node is appended to the head and the entry is overwritten to point at it. The node this name pointed to before stays attached, with no entry pointing to it. |
| GameUi.GameUI.RemoveAnimation | game-ui.js:500-506 | Afterwards the map has no entry for the name, and other entries are untouched. The head loses the node the entry named, or is unchanged when the name was absent. |
| GameUi.GameUI.ShowToast | game-ui.js:364-391 | Exactly one toast is appended, with the class and background of its type (default `info`). Its exit delay is the timer delay of the duration (default 3000). |
| GameUi.GameUI.ToastExitStarts | game-ui.js:393-394 | Only toast `id` starts sliding out. |
| GameUi.GameUI.ToastExpires | game-ui.js:395 | Toast `id` is detached and the others stay. |
| GameUi.GameUI.CelebrateProgress | game-ui.js:351-362 | A milestone appends exactly one `success` toast with its message and a 3000 ms exit delay, and advances the toast id counter by one. Any other percentage changes nothing. |
| GameUi.GameUI.CreateClickParticles | game-ui.js:103-134 | A click attaches exactly 6 fresh particles, with angle indices 0 to 5, and nothing else. The existing particles are untouched, the id counter advances by 6, and the removal log is unchanged. |

## Left out

- Particle trajectories are not modelled: positions, velocities, gravity, opacity, scale, colours and sizes. They are floating point and random.
- The score popup is not modelled. It counts opacity down in floating-point steps.
- `updateProgressBar` is not modelled. Its percentage is a float compared for exact equality.
- GameUi.MilestoneMessage: takes integer percentages only, because its float-valued caller is left out.
- Cosmetic document work is not modelled: CSS text, keyframe bodies, innerHTML templates, hover, touch and focus styling, and the hover handlers of `addInteractiveElements`.
- Click routing is not modelled: which clicks create a particle burst. On the homepage, `createParticleEffects` (script.js:328-337) attaches the handler to `.start-btn`, `.feature-card` and `.instruction-step` only. On the game page, `setupVisualEffects` (game-ui.js:18-22) creates a burst only for `.submit-btn`, `.option-btn`, `.action-btn`, `.difficulty-btn` and `.control-btn` targets. Because of that filter, the `.click()` that `handleNumberKey` performs on a difficulty or option button also creates a burst of 6 particles. The model takes each burst as a separate call of `CreateClickParticles` and does not link `HandleNumberKey`'s clicks to it.
- Of `initializeHomepage`, only the keyboard handler it installs is modelled, as `Homepage.HomeDocument.OnKeyDown`. Its log line, `animateWelcome` and `prepareSoundEffects` are left out; they are cosmetic or write state nothing reads.
- The level-up, answer-feedback, spinner, shake and pulse effects are not modelled; they are cosmetic.
- `startGameTransition`'s overlay is not modelled: creating it, its spinner and its removal are cosmetic. The timer that ends the transition is modelled, as `TransitionEnds`.
- The host is abstracted:
  - `requestAnimationFrame`, `setTimeout` and `setInterval` scheduling become explicit events;
  - the 10% motivational draw and the line chosen become parameters;
  - `Date.now()` readings become parameters;
  - `localStorage` becomes a map;
  - `console` output is dropped;
  - the `window.mathQuest` global becomes a parameter;
  - the `window.mathQuestSounds` global is dropped: it is written once and nothing reads it.
- GameUi.TimerDelay: timers are taken to fire exactly at their delay. The host's lateness and its clamping of nested timers are not modelled.
- Homepage.HomeDocument.ShowMessage: the text is a tag saying which message it is, not the rendered HTML. The welcome text concatenates the UTF-16 name with emoji.
- Keys.LowerAscii: lowers ASCII letters only. Full Unicode case mapping gives the same result for every comparison the handlers make, because no other character lowers to `n`, `p`, `h` or `escape`.
- GameUi.HandleNumberKey: `num` is an integer. `parseInt` results such as NaN are not modelled, and the key handler only passes 1 to 4.
- GameUi.EffectiveKeyframes: covers only the style nodes `addAnimation` attaches. Animation names and keyframe bodies are taken to be well-formed CSS.
- The `particles` array of the GameUI object is not modelled. It is created empty and never used.
- `GameUI.init`'s log line and the global styles added on `DOMContentLoaded` are not modelled.

=== FILE: dom.dfy ===
/** Lists of document nodes identified by node ids, and `remove()` on them. */
module Dom {

  /**
   * The node list after `remove()` on the node with id `id`: that node is
   * gone, the others keep their order, and removing a node that is not
   * attached leaves the list as it is.
   */
  function Detach<T(!new)>(nodes: seq<T>, idOf: T -> nat, id: nat): (r: seq<T>)
    ensures |r| <= |nodes|
    ensures forall n :: n in r <==> n in nodes && idOf(n) != id
  {
    if nodes == [] then []
    else if idOf(nodes[0]) == id then Detach(nodes[1..], idOf, id)
    else [nodes[0]] + Detach(nodes[1..], idOf, id)
  }

  /** Removing a node that is no longer attached changes nothing. */
  lemma {:induction false} DetachAbsent<T(!new)>(nodes: seq<T>, idOf: T -> nat, id: nat)
    requires forall n :: n in nodes ==> idOf(n) != id
    ensures Detach(nodes, idOf, id) == nodes
  {
    if nodes != [] {
      DetachAbsent(nodes[1..], idOf, id);
      assert [nodes[0]] + nodes[1..] == nodes;
    }
  }

  /** Removal acts on the two halves of a node list separately. */
  lemma {:induction false} DetachConcat<T(!new)>(a: seq<T>, b: seq<T>, idOf: T -> nat, id: nat)
    ensures Detach(a + b, idOf, id) == Detach(a, idOf, id) + Detach(b, idOf, id)
  {
    if a != [] {
      DetachConcat(a[1..], b, idOf, id);
      assert (a + b)[1..] == a[1..] + b;
    } else {
      assert a + b == b;
    }
  }

  /** Node ids rise along the list: nodes are attached in the order they were created. */
  predicate IdsIncreasing<T(!new)>(nodes: seq<T>, idOf: T -> nat) {
    forall i, j | 0 <= i < j < |nodes| :: idOf(nodes[i]) < idOf(nodes[j])
  }

  /** Removal keeps the remaining nodes in creation order. */
  lemma {:induction false} DetachKeepsIncreasing<T(!new)>(nodes: seq<T>, idOf: T -> nat, id: nat)
    requires IdsIncreasing(nodes, idOf)
    ensures IdsIncreasing(Detach(nodes, idOf, id), idOf)
  {
    if nodes != [] {
      var rest := nodes[1..];
      SuffixKeepsIncreasing(nodes, idOf);
      DetachKeepsIncreasing(rest, idOf, id);
      var d := Detach(rest, idOf, id);
      forall n | n in d ensures idOf(nodes[0]) < idOf(n) {
        var k :| 0 <= k < |rest| && rest[k] == n;
        assert nodes[k + 1] == n;
      }
    }
  }

  /** Dropping the first node keeps creation order. */
  lemma SuffixKeepsIncreasing<T(!new)>(nodes: seq<T>, idOf: T -> nat)
    requires IdsIncreasing(nodes, idOf) && nodes != []
    ensures IdsIncreasing(nodes[1..], idOf)
  {
    var rest := nodes[1..];
    forall i, j | 0 <= i < j < |rest| ensures idOf(rest[i]) < idOf(rest[j]) {
      assert rest[i] == nodes[i + 1] && rest[j] == nodes[j + 1];
    }
  }

  /** Appending a node with a larger id than every attached node keeps creation order. */
  lemma AppendKeepsIncreasing<T(!new)>(nodes: seq<T>, n: T, idOf: T -> nat)
    requires IdsIncreasing(nodes, idOf) && forall m :: m in nodes ==> idOf(m) < idOf(n)
    ensures IdsIncreasing(nodes + [n], idOf)
  {
    var r := nodes + [n];
    forall i, j | 0 <= i < j < |r| ensures idOf(r[i]) < idOf(r[j]) {
      if j == |nodes| {
        assert r[i] in nodes;
      } else {
        assert r[i] == nodes[i] && r[j] == nodes[j];
      }
    }
  }

  /**
   * With ids unique, removing the node at position `k` by its id takes out
   * that node and nothing else.
   */
  lemma DetachAt<T(!new)>(nodes: seq<T>, idOf: T -> nat, k: nat)
    requires IdsIncreasing(nodes, idOf) && k < |nodes|
    ensures Detach(nodes, idOf, idOf(nodes[k])) == nodes[..k] + nodes[k + 1..]
  {
    var id := idOf(nodes[k]);
    var before, after := nodes[..k], nodes[k + 1..];
    forall n | n in before ensures idOf(n) != id {
      var i :| 0 <= i < |before| && before[i] == n;
      assert idOf(nodes[i]) < idOf(nodes[k]);
    }
    forall n | n in after ensures idOf(n) != id {
      var i :| 0 <= i < |after| && after[i] == n;
      assert idOf(nodes[k]) < idOf(nodes[k + 1 + i]);
    }
    DetachAbsent(before, idOf, id);
    DetachAbsent(after, idOf, id);
    DetachConcat([nodes[k]], after, idOf, id);
    assert Detach([nodes[k]], idOf, id) == [];
    SplitAt(nodes, k);
    DetachConcat(before, [nodes[k]] + after, idOf, id);
  }

  lemma SplitAt<T>(s: seq<T>, k: nat)
    requires k < |s|
    ensures s == s[..k] + ([s[k]] + s[k + 1..])
  {
  }

  /** The node list after node `id` was restyled by `f` (a detached node is left as it is). */
  function Restyle<T(!new)>(nodes: seq<T>, idOf: T -> nat, id: nat, f: T -> T): (r: seq<T>)
    ensures |r| == |nodes|
    ensures forall i :: 0 <= i < |nodes| ==> r[i] == if idOf(nodes[i]) == id then f(nodes[i]) else nodes[i]
  {
    seq(|nodes|, i requires 0 <= i < |nodes| => if idOf(nodes[i]) == id then f(nodes[i]) else nodes[i])
  }
}

=== FILE: game_ui.dfy ===
/**
 * The game page's UI helper (game-ui.js): its keyboard dispatch, the number
 * key selection, the milestone toasts, the toast nodes and their timers, the
 * named-animation table with the style nodes it attaches to the head, and
 * the click particles. The game object (`window.mathQuest`) and the page's
 * screens and buttons are parameters; timer expiries are methods.
 */
module GameUi {
  import opened Wrappers
  import opened Keys
  import opened Palette
  import opened Dom
  import Particles

  /** Particles per click on the game page. */
  const GameBurstSize := 6
  /** Both toast animations (slide in, slide out) last this long. */
  const ToastSlideMs := 500
  /** The time a toast stays before sliding out, unless the caller gives one. */
  const DefaultToastMs := 3000

  // ---------------------------------------------------------------------
  // Keyboard dispatch
  // ---------------------------------------------------------------------

  /** The game object as the key handler sees it: missing, or present and paused or not. */
  datatype GameState = NoGame | Game(paused: bool)

  /** What one `keydown` on the game page calls. */
  datatype GameKeyAction =
    | TogglePause        // the game's `togglePause`
    | ShowHelp           // the game's `showHelp`
    | NumberKey(num: int) // `handleNumberKey(num)`

  /**
   * The game page's `keydown` handler. Nothing happens when the event's
   * target is an input field. Otherwise, on the lowered key: `p` toggles the
   * pause only when a game runs and is not paused, `escape` toggles it
   * whenever a game exists, `h` shows the help when a game exists, and the
   * digits 1 to 4 go to `handleNumberKey` whether or not a game exists.
   */
  function RouteGameKey(key: string, targetIsInput: bool, game: GameState): (act: Option<GameKeyAction>)
    ensures targetIsInput ==> act == None
    ensures act == Some(TogglePause) <==>
      !targetIsInput && game.Game? && (((key == "p" || key == "P") && !game.paused) || LowerAscii(key) == "escape")
    ensures act == Some(ShowHelp) <==> !targetIsInput && game.Game? && (key == "h" || key == "H")
    ensures (act.Some? && act.value.NumberKey?) <==>
      !targetIsInput && (key == "1" || key == "2" || key == "3" || key == "4")
    ensures act.Some? && act.value.NumberKey? ==>
      1 <= act.value.num <= 4 && key == [('0' as int + act.value.num) as char]
  {
    LowerIsLetter(key, 'p');
    LowerIsLetter(key, 'h');
    LowerIsDigit(key, '1');
    LowerIsDigit(key, '2');
    LowerIsDigit(key, '3');
    LowerIsDigit(key, '4');
    if targetIsInput then None
    else
      var k := LowerAscii(key);
      if k == "p" then (if game.Game? && !game.paused then Some(TogglePause) else None)
      else if k == "h" then (if game.Game? then Some(ShowHelp) else None)
      else if k == "escape" then (if game.Game? then Some(TogglePause) else None)
      else if k == "1" || k == "2" || k == "3" || k == "4" then Some(NumberKey(key[0] as int - '0' as int))
      else None
  }

  /** The Escape key toggles the pause of a paused game too, while `p` does not. */
  lemma EscapeResumesButPDoesNot(targetIsInput: bool)
    requires !targetIsInput
    ensures RouteGameKey("Escape", targetIsInput, Game(true)) == Some(TogglePause)
    ensures RouteGameKey("p", targetIsInput, Game(true)) == None
  {
    assert LowerAscii("Escape") == "escape";
  }

  // ---------------------------------------------------------------------
  // handleNumberKey
  // ---------------------------------------------------------------------

  /** A screen element looked up by id: missing from the page, or present and active or not. */
  datatype Screen = Missing | Present(active: bool)

  /** A present screen whose class list holds `active`. */
  predicate IsActive(s: Screen) {
    s.Present? && s.active
  }

  /** A present screen whose class list does not hold `active`. */
  predicate IsInactive(s: Screen) {
    s.Present? && !s.active
  }

  /** What `handleNumberKey` ends in. */
  datatype NumberKeyOutcome =
    | ClickDifficulty(index: nat) // clicks difficulty button `index`
    | ClickOption(index: nat)     // clicks option button `index`
    | NoEffect
    | Throws                      // a TypeError: a missing screen, or no button at `num - 1`

  /**
   * `handleNumberKey(num)`, given how many difficulty and option buttons the
   * page has and its welcome and question screens. Each branch first tests
   * the button count and only then looks the screen up, so a missing screen
   * throws only when the count test passed; a `num` below 1 passes every
   * count test and then finds no button at `num - 1`.
   */
  function HandleNumberKey(num: int, difficultyButtons: nat, welcome: Screen, optionButtons: nat, question: Screen)
    : (r: NumberKeyOutcome)
    ensures r.ClickDifficulty? <==> 1 <= num <= difficultyButtons && IsActive(welcome)
    ensures r.ClickDifficulty? ==> r.index == num - 1 && r.index < difficultyButtons
    ensures r.ClickOption? <==>
      !(num <= difficultyButtons && !IsInactive(welcome)) && 1 <= num <= optionButtons && IsActive(question)
    ensures r.ClickOption? ==> r.index == num - 1 && r.index < optionButtons
    ensures r == Throws <==>
      || (num <= difficultyButtons && (welcome.Missing? || (IsActive(welcome) && num < 1)))
      || (!(num <= difficultyButtons && !IsInactive(welcome)) && num <= optionButtons
          && (question.Missing? || (IsActive(question) && num < 1)))
  {
    if num <= difficultyButtons && !IsInactive(welcome) then
      if welcome.Missing? || num < 1 then Throws else ClickDifficulty(num - 1)
    else if num <= optionButtons && !IsInactive(question) then
      if question.Missing? || num < 1 then Throws else ClickOption(num - 1)
    else NoEffect
  }

  /**
   * On a page that has both screens, a digit key never throws, and a click on
   * a difficulty button wins over a click on an option button.
   */
  lemma NumberKeysOnGamePage(key: string, game: GameState, difficultyButtons: nat, welcomeActive: bool,
                             optionButtons: nat, questionActive: bool)
    requires RouteGameKey(key, false, game).Some? && RouteGameKey(key, false, game).value.NumberKey?
    ensures var num := RouteGameKey(key, false, game).value.num;
      var r := HandleNumberKey(num, difficultyButtons, Present(welcomeActive), optionButtons, Present(questionActive));
      && r != Throws
      && (welcomeActive && num <= difficultyButtons ==> r == ClickDifficulty(num - 1))
      && (r.ClickOption? ==> !welcomeActive || difficultyButtons < num)
  {
  }

  // ---------------------------------------------------------------------
  // Milestones and toasts
  // ---------------------------------------------------------------------

  /** The message `celebrateProgress` shows for a percentage, if it is a milestone. */
  function MilestoneMessage(percentage: int): (m: Option<string>)
    ensures m.Some? <==> percentage == 25 || percentage == 50 || percentage == 75 || percentage == 100
  {
    if percentage == 25 then Some("\U{1F3AF} Quarter way there!")
    else if percentage == 50 then Some("\U{2B50} Halfway done!")
    else if percentage == 75 then Some("\U{1F525} Almost finished!")
    else if percentage == 100 then Some("\U{1F3C6} Quest Complete!")
    else None
  }

  /** Each milestone has its own message, so the toast tells which one was reached. */
  lemma MilestoneMessagesDistinct(p: int, q: int)
    requires MilestoneMessage(p).Some? && MilestoneMessage(q).Some? && p != q
    ensures MilestoneMessage(p).value != MilestoneMessage(q).value
  {
    assert MilestoneMessage(p).value[0] != MilestoneMessage(q).value[0];
  }

  /** The class attribute of a toast of type `toastType`. */
  function ToastClass(toastType: string): (cls: string)
    ensures |cls| == 17 + |toastType|
    ensures cls[..17] == "game-toast toast-" && cls[17..] == toastType
  {
    "game-toast toast-" + toastType
  }

  /**
   * The names a plain object inherits from `Object.prototype`. Looked up in
   * the colour table they yield a function or an object, which is truthy, so
   * the info fallback is not taken, and which prints as text that is not a
   * colour, so the browser drops the `background` declaration.
   */
  const InheritedNames: set<string> := {
    "constructor", "__proto__", "hasOwnProperty", "isPrototypeOf", "propertyIsEnumerable",
    "toString", "valueOf", "toLocaleString",
    "__defineGetter__", "__defineSetter__", "__lookupGetter__", "__lookupSetter__"
  }

  /**
   * `colors[type] || colors.info`: the gradient of a known type, no background
   * for an inherited name, and the info gradient for every other type.
   */
  function ToastBackground(toastType: string): (bg: Option<string>)
    ensures bg == Some(SuccessGradient) <==> toastType == "success"
    ensures bg == Some(WarningGradient) <==> toastType == "warning"
    ensures bg == Some(ErrorGradient) <==> toastType == "error"
    ensures bg == None <==> toastType in InheritedNames
    ensures bg == Some(InfoGradient) <==>
      toastType != "success" && toastType != "warning" && toastType != "error" && toastType !in InheritedNames
  {
    GradientsDistinct();
    if toastType == "success" then Some(SuccessGradient)
    else if toastType == "warning" then Some(WarningGradient)
    else if toastType == "error" then Some(ErrorGradient)
    else if toastType in InheritedNames then None
    else Some(InfoGradient)
  }

  /**
   * The WebIDL `long` conversion `setTimeout` applies to its delay: the
   * integer taken modulo 2^32 into the signed 32-bit range.
   */
  function ToInt32(x: int): (r: int)
    ensures -0x8000_0000 <= r < 0x8000_0000
    ensures (x - r) % 0x1_0000_0000 == 0
    ensures -0x8000_0000 <= x < 0x8000_0000 ==> r == x
  {
    var m := (x + 0x8000_0000) % 0x1_0000_0000;
    assert x - (m - 0x8000_0000) == 0x1_0000_0000 * ((x + 0x8000_0000) / 0x1_0000_0000);
    m - 0x8000_0000
  }

  /** The delay a timer waits: the converted timeout, or 0 when that is negative. */
  function TimerDelay(timeout: int): (d: nat)
    ensures d < 0x8000_0000
    ensures 0 <= timeout < 0x8000_0000 ==> d == timeout
    ensures d == 0 <==> ToInt32(timeout) <= 0
    ensures d > 0 ==> d == ToInt32(timeout)
  {
    var t := ToInt32(timeout);
    if t < 0 then 0 else t
  }

  /** Where a toast is, `t` ms after it was shown, when its exit timer waits `exitAt` ms. */
  datatype ToastPhase = SlidingIn | Resting | SlidingOut | Gone

  /** Orders the phases as they follow each other. */
  function PhaseRank(p: ToastPhase): (n: nat)
    ensures n <= 3
  {
    match p
    case SlidingIn => 0
    case Resting => 1
    case SlidingOut => 2
    case Gone => 3
  }

  /**
   * The phase of a toast `t` ms after it was shown: the entrance animation
   * until 500 ms or the exit timer, whichever is first; the exit animation
   * from the exit timer on; detached 500 ms after that.
   */
  function ToastPhaseAt(exitAt: nat, t: nat): (p: ToastPhase)
    ensures p == Gone <==> t >= exitAt + ToastSlideMs
    ensures p == SlidingOut <==> exitAt <= t < exitAt + ToastSlideMs
    ensures p == SlidingIn <==> t < exitAt && t < ToastSlideMs
    ensures p == Resting <==> ToastSlideMs <= t < exitAt
  {
    if t >= exitAt + ToastSlideMs then Gone
    else if t >= exitAt then SlidingOut
    else if t < ToastSlideMs then SlidingIn
    else Resting
  }

  /** A toast's phases never go back. */
  lemma ToastPhasesInOrder(exitAt: nat, t1: nat, t2: nat)
    requires t1 <= t2
    ensures PhaseRank(ToastPhaseAt(exitAt, t1)) <= PhaseRank(ToastPhaseAt(exitAt, t2))
  {
  }

  /** A toast shown with the default duration is attached for exactly 3500 ms. */
  lemma DefaultToastLifetime(t: nat)
    ensures ToastPhaseAt(TimerDelay(DefaultToastMs), t) != Gone <==> t < 3500
  {
  }

  /** One `.game-toast` node; `leaving` once its exit animation has been set. */
  datatype Toast = Toast(id: nat, className: string, text: string, background: Option<string>, leaving: bool)

  function ToastId(t: Toast): nat {
    t.id
  }

  function StartSlidingOut(t: Toast): (r: Toast)
    ensures r.leaving && r.id == t.id && r.className == t.className && r.text == t.text
  {
    t.(leaving := true)
  }

  // ---------------------------------------------------------------------
  // Named animations
  // ---------------------------------------------------------------------

  /** A `<style>` node `addAnimation` attached to the head: `@keyframes animationName { keyframes }`. */
  datatype StyleSheet = StyleSheet(id: nat, animationName: string, keyframes: string)

  function SheetId(s: StyleSheet): nat {
    s.id
  }

  /**
   * The keyframes a name resolves to, given the style nodes in document
   * order: when several `@keyframes` rules share a name the last one wins
   * (CSS Animations Level 1, section 3).
   */
  function EffectiveKeyframes(sheets: seq<StyleSheet>, name: string): (k: Option<string>)
    ensures k.None? <==> forall s :: s in sheets ==> s.animationName != name
    ensures k.Some? ==>
      exists i :: 0 <= i < |sheets| && sheets[i].animationName == name && sheets[i].keyframes == k.value
        && forall j :: i < j < |sheets| ==> sheets[j].animationName != name
  {
    if sheets == [] then None
    else
      var last := sheets[|sheets| - 1];
      if last.animationName == name then Some(last.keyframes)
      else
        var k := EffectiveKeyframes(sheets[..|sheets| - 1], name);
        assert forall s :: s in sheets ==> s in sheets[..|sheets| - 1] || s == last;
        k
  }

  /** Two attached nodes with the same id are the same node. */
  lemma IdsUnique(sheets: seq<StyleSheet>, s: StyleSheet, t: StyleSheet)
    requires IdsIncreasing(sheets, SheetId) && s in sheets && t in sheets && s.id == t.id
    ensures s == t
  {
    var i :| 0 <= i < |sheets| && sheets[i] == s;
    var j :| 0 <= j < |sheets| && sheets[j] == t;
    assert !(i < j) && !(j < i);
  }

  /**
   * Adding a name twice and removing it once leaves the first rule in force:
   * the entry only tracked the second node, and the first is still attached.
   */
  lemma ReaddedAnimationResurfaces(head: seq<StyleSheet>, first: StyleSheet, second: StyleSheet)
    requires IdsIncreasing(head + [first, second], SheetId)
    requires first.animationName == second.animationName
    ensures var after := Detach(head + [first, second], SheetId, second.id);
      EffectiveKeyframes(after, first.animationName) == Some(first.keyframes)
  {
    var sheets := head + [first, second];
    DetachAt(sheets, SheetId, |sheets| - 1);
    assert sheets[..|sheets| - 1] + sheets[|sheets|..] == head + [first];
  }

  /** Some style node in `sheets` has id `id` and defines `name`. */
  ghost predicate Attached(sheets: seq<StyleSheet>, id: nat, name: string) {
    exists s :: s in sheets && s.id == id && s.animationName == name
  }

  /** Attaching a node keeps every earlier node attached and attaches the new one. */
  lemma AttachedAppend(sheets: seq<StyleSheet>, s: StyleSheet, id: nat, name: string)
    ensures Attached(sheets, id, name) ==> Attached(sheets + [s], id, name)
    ensures Attached(sheets + [s], s.id, s.animationName)
  {
    assert s in sheets + [s];
    if Attached(sheets, id, name) {
      var t :| t in sheets && t.id == id && t.animationName == name;
      assert t in sheets + [s];
    }
  }

  /** Detaching one node keeps every node with another id attached. */
  lemma AttachedDetach(sheets: seq<StyleSheet>, removedId: nat, id: nat, name: string)
    requires Attached(sheets, id, name) && id != removedId
    ensures Attached(Detach(sheets, SheetId, removedId), id, name)
  {
    var t :| t in sheets && t.id == id && t.animationName == name;
    assert t in Detach(sheets, SheetId, removedId);
  }

  /**
   * The head and the animation map agree: style nodes are attached in
   * creation order with ids below `nextId`, and every entry of the map names
   * an attached style node for that name.
   */
  ghost predicate TableValid(head: seq<StyleSheet>, animations: map<string, nat>, nextId: nat) {
    && IdsIncreasing(head, SheetId)
    && (forall s | s in head :: s.id < nextId)
    && (forall name | name in animations :: Attached(head, animations[name], name))
  }

  /** `addAnimation` keeps the head and the map in agreement. */
  lemma AddKeepsTable(head: seq<StyleSheet>, animations: map<string, nat>, nextId: nat, name: string, keyframes: string)
    requires TableValid(head, animations, nextId)
    ensures TableValid(head + [StyleSheet(nextId, name, keyframes)], animations[name := nextId], nextId + 1)
  {
    var sheet := StyleSheet(nextId, name, keyframes);
    var head' := head + [sheet];
    forall n | n in animations ensures Attached(head', animations[n], n) {
      AttachedAppend(head, sheet, animations[n], n);
    }
    AttachedAppend(head, sheet, nextId, name);
    AppendKeepsIncreasing(head, sheet, SheetId);
  }

  /**
   * A node an earlier `addAnimation` attached for the same name stays
   * attached, and no entry of the map points to it any more.
   */
  lemma AddOrphansEarlierNode(head: seq<StyleSheet>, animations: map<string, nat>, nextId: nat, name: string, keyframes: string)
    requires TableValid(head, animations, nextId) && name in animations
    ensures Attached(head + [StyleSheet(nextId, name, keyframes)], animations[name], name)
    ensures animations[name] < nextId
    ensures forall n :: n in animations && n != name ==> animations[n] != animations[name]
  {
    AttachedAppend(head, StyleSheet(nextId, name, keyframes), animations[name], name);
    var u :| u in head && u.id == animations[name] && u.animationName == name;
    forall n | n in animations && n != name ensures animations[n] != animations[name] {
      var t :| t in head && t.id == animations[n] && t.animationName == n;
      if t.id == u.id {
        IdsUnique(head, t, u);
      }
    }
  }

  /** `removeAnimation` of a mapped name keeps the head and the map in agreement. */
  lemma RemoveKeepsTable(head: seq<StyleSheet>, animations: map<string, nat>, nextId: nat, name: string)
    requires TableValid(head, animations, nextId) && name in animations
    ensures TableValid(Detach(head, SheetId, animations[name]), animations - {name}, nextId)
  {
    var id := animations[name];
    var s :| s in head && s.id == id && s.animationName == name;
    DetachKeepsIncreasing(head, SheetId, id);
    var head' := Detach(head, SheetId, id);
    var animations' := animations - {name};
    forall n | n in animations' ensures Attached(head', animations'[n], n) {
      var t :| t in head && t.id == animations[n] && t.animationName == n;
      if t.id == id {
        IdsUnique(head, t, s);
      }
      AttachedDetach(head, id, animations[n], n);
    }
  }

  /** `removeAnimation` of a mapped name detaches exactly one node: the one its entry names, for that name. */
  lemma RemoveDetachesOneNode(head: seq<StyleSheet>, animations: map<string, nat>, nextId: nat, name: string)
    requires TableValid(head, animations, nextId) && name in animations
    ensures exists k ::
      && 0 <= k < |head| && head[k].id == animations[name] && head[k].animationName == name
      && Detach(head, SheetId, animations[name]) == head[..k] + head[k + 1..]
  {
    var s :| s in head && s.id == animations[name] && s.animationName == name;
    var k :| 0 <= k < |head| && head[k] == s;
    DetachAt(head, SheetId, k);
  }

  // ---------------------------------------------------------------------
  // The helper object
  // ---------------------------------------------------------------------

  /** The `GameUI` object together with the nodes it attaches to the document. */
  class GameUI {
    const particles: Particles.ParticleLayer
    /** The `animations` map: each name with the id of the style node last added for it. */
    var animations: map<string, nat>
    /** The style nodes `addAnimation` attached to the head, in document order. */
    var head: seq<StyleSheet>
    var nextSheetId: nat
    /** The attached toast nodes, in document order. */
    var toasts: seq<Toast>
    var nextToastId: nat

    /**
     * Nodes are attached in creation order with fresh ids, and every entry of
     * the animation map names an attached style node for that name.
     */
    ghost predicate Valid()
      reads this, particles
    {
      && TableValid(head, animations, nextSheetId)
      && IdsIncreasing(toasts, ToastId)
      && (forall t | t in toasts :: t.id < nextToastId)
      && particles.Valid()
    }

    constructor ()
      ensures Valid() && fresh(particles) && particles.live == map[]
      ensures animations == map[] && head == [] && toasts == []
    {
      animations, head, nextSheetId := map[], [], 0;
      toasts, nextToastId := [], 0;
      particles := new Particles.ParticleLayer();
    }

    /**
     * `addAnimation`: attach a new style node for `name` and point the map
     * at it. A node an earlier call attached for `name` stays in the head
     * with no entry pointing to it.
     */
    method AddAnimation(name: string, keyframes: string) returns (id: nat)
      requires Valid()
      modifies this`animations, this`head, this`nextSheetId
      ensures Valid()
      ensures id == old(nextSheetId) && nextSheetId == id + 1
      ensures head == old(head) + [StyleSheet(id, name, keyframes)]
      ensures animations == old(animations)[name := id]
      ensures name in old(animations) ==>
        && Attached(head, old(animations)[name], name)
        && forall n :: n in animations ==> animations[n] != old(animations)[name]
    {
      id := nextSheetId;
      AddKeepsTable(head, animations, nextSheetId, name, keyframes);
      ghost var entries := animations;
      if name in animations {
        AddOrphansEarlierNode(head, animations, nextSheetId, name, keyframes);
      }
      head := head + [StyleSheet(id, name, keyframes)];
      animations := animations[name := id];
      nextSheetId := nextSheetId + 1;
      if name in entries {
        forall n | n in animations ensures animations[n] != entries[name] {
          if n != name {
            assert animations[n] == entries[n];
          }
        }
      }
    }

    /**
     * `removeAnimation`: when the map has `name`, detach the node it points
     * to and delete the entry; otherwise do nothing.
     */
    method RemoveAnimation(name: string)
      requires Valid()
      modifies this`animations, this`head
      ensures Valid()
      ensures animations == old(animations) - {name}
      ensures name !in old(animations) ==> head == old(head)
      ensures name in old(animations) ==> head == Detach(old(head), SheetId, old(animations)[name])
    {
      if name in animations {
        RemoveKeepsTable(head, animations, nextSheetId, name);
        head := Detach(head, SheetId, animations[name]);
        animations := animations - {name};
      } else {
        assert animations - {name} == animations;
      }
    }

    /**
     * `showToast`: attach a toast with the given text (type `info` and 3000 ms
     * by default) and report how long its exit timer waits.
     */
    method ShowToast(message: string, toastType: Option<string>, duration: Option<int>) returns (id: nat, exitAt: nat)
      requires Valid()
      modifies this`toasts, this`nextToastId
      ensures Valid()
      ensures id == old(nextToastId) && nextToastId == id + 1
      ensures var t := toastType.GetOr("info");
        toasts == old(toasts) + [Toast(id, ToastClass(t), message, ToastBackground(t), false)]
      ensures exitAt == TimerDelay(duration.GetOr(DefaultToastMs))
    {
      var t := toastType.GetOr("info");
      id := nextToastId;
      nextToastId := nextToastId + 1;
      toasts := toasts + [Toast(id, ToastClass(t), message, ToastBackground(t), false)];
      exitAt := TimerDelay(duration.GetOr(DefaultToastMs));
    }

    /** The exit timer of toast `id`: start its slide-out. */
    method ToastExitStarts(id: nat)
      requires Valid()
      modifies this`toasts
      ensures Valid()
      ensures toasts == Restyle(old(toasts), ToastId, id, StartSlidingOut)
    {
      toasts := Restyle(toasts, ToastId, id, StartSlidingOut);
      assert forall i :: 0 <= i < |toasts| ==> toasts[i].id == old(toasts)[i].id;
    }

    /** The removal timer of toast `id`, 500 ms after its exit started: detach it. */
    method ToastExpires(id: nat)
      requires Valid()
      modifies this`toasts
      ensures Valid()
      ensures toasts == Detach(old(toasts), ToastId, id)
      ensures forall t :: t in toasts <==> t in old(toasts) && t.id != id
    {
      DetachKeepsIncreasing(toasts, ToastId, id);
      toasts := Detach(toasts, ToastId, id);
    }

    /**
     * `celebrateProgress`: a milestone shows exactly one `success` toast with
     * its message and the default duration; any other percentage shows nothing.
     */
    method CelebrateProgress(percentage: int) returns (exitAt: Option<nat>)
      requires Valid()
      modifies this`toasts, this`nextToastId
      ensures Valid()
      ensures MilestoneMessage(percentage).None? ==>
        toasts == old(toasts) && nextToastId == old(nextToastId) && exitAt == None
      ensures MilestoneMessage(percentage).Some? ==>
        && toasts == old(toasts) + [Toast(old(nextToastId), "game-toast toast-success",
                                          MilestoneMessage(percentage).value, Some(SuccessGradient), false)]
        && nextToastId == old(nextToastId) + 1
        && exitAt == Some(DefaultToastMs)
    {
      exitAt := None;
      var m := MilestoneMessage(percentage);
      if m.Some? {
        assert ToastClass("success") == "game-toast toast-success";
        assert TimerDelay(DefaultToastMs) == DefaultToastMs;
        var _, delay := ShowToast(m.value, Some("success"), None);
        exitAt := Some(delay);
      }
    }

    /**
     * `createClickParticles`: six particles, angle indices 0 to 5, the one at
     * index `i` started at clock reading `clock[i]`.
     */
    method CreateClickParticles(clock: seq<int>) returns (ids: seq<nat>)
      requires Valid() && |clock| == GameBurstSize
      modifies particles
      ensures Valid()
      ensures |ids| == GameBurstSize
      ensures forall i :: 0 <= i < GameBurstSize ==>
        ids[i] !in old(particles.live) && ids[i] in particles.live
        && particles.live[ids[i]] == Particles.Particle(i, GameBurstSize, clock[i], 0)
      ensures forall id :: id in old(particles.live) ==> id in particles.live && particles.live[id] == old(particles.live)[id]
      ensures particles.live.Keys == old(particles.live.Keys) + set i | 0 <= i < GameBurstSize :: ids[i]
      ensures particles.nextId == old(particles.nextId) + GameBurstSize && particles.removed == old(particles.removed)
    {
      ids := particles.Burst(clock);
    }
  }
}

=== FILE: homepage.dfy ===
/**
 * The homepage (script.js) as the state of its document: the name field, the
 * start button, the stored name, the `.game-message` nodes and the click
 * particles. Event handlers and timer expiries are methods; the host's clock,
 * random numbers and timer scheduling are their parameters.
 */
module Homepage {
  import opened Utf16
  import opened Wrappers
  import opened Keys
  import opened Palette
  import opened PlayerName
  import Particles
  import opened Dom

  /** Particles per click on the homepage. */
  const HomepageBurstSize := 8
  /** A message starts its exit animation this long after it is shown ... */
  const MessageExitDelayMs := 3000
  /** ... and its guarded removal runs this long after that. */
  const MessageRemovalDelayMs := 500
  /** How many motivational lines the ticker picks from. */
  const MotivationalLineCount := 5

  /** The text of a message, by what produced it. */
  datatype MessageText =
    | NameTooShortText           // submit: fewer than 2 units after trimming
    | NameTooLongText            // submit: more than 20 units after trimming
    | WelcomeText(name: Utf16String) // submit: the accepted name, welcomed
    | MotivationalText(line: nat)    // the ticker's line number `line`
    | GameStartText                  // the start transition has finished
    | CallerText(html: string)       // any text handed to the exported `showMessage`

  /** One `.game-message` node; `leaving` once its exit animation has been set. */
  datatype Message = Message(id: nat, messageType: string, text: MessageText, leaving: bool)

  /** The class attribute of a message of type `messageType`. */
  function MessageClass(messageType: string): (cls: string)
    ensures |cls| == 26 + |messageType|
    ensures cls[..26] == "game-message game-message-" && cls[26..] == messageType
  {
    "game-message game-message-" + messageType
  }

  /** The success gradient, the warning gradient, or the info gradient for every other type (`error` included). */
  function MessageBackground(messageType: string): (g: string)
    ensures g == SuccessGradient <==> messageType == "success"
    ensures g == WarningGradient <==> messageType == "warning"
    ensures g == InfoGradient <==> messageType != "success" && messageType != "warning"
  {
    GradientsDistinct();
    if messageType == "success" then SuccessGradient
    else if messageType == "warning" then WarningGradient
    else InfoGradient
  }

  /** Where a message stands after it was shown, unless a later message replaced it first. */
  datatype MessagePhase = Showing | Leaving | Detached

  /**
   * The phase of a message `t` ms after it was shown: shown until its exit
   * timer, leaving (its exit animation set) until the removal timer, and
   * detached from then on.
   */
  function MessagePhaseAt(t: nat): (p: MessagePhase)
    ensures p == Showing <==> t < MessageExitDelayMs
    ensures p == Leaving <==> MessageExitDelayMs <= t < MessageExitDelayMs + MessageRemovalDelayMs
    ensures p == Detached <==> t >= MessageExitDelayMs + MessageRemovalDelayMs
  {
    if t < MessageExitDelayMs then Showing
    else if t < MessageExitDelayMs + MessageRemovalDelayMs then Leaving
    else Detached
  }

  /** A message nobody replaces stays attached for exactly 3500 ms, and once detached it stays so. */
  lemma MessageLifetime(t1: nat, t2: nat)
    requires t1 <= t2
    ensures MessagePhaseAt(t1) != Detached <==> t1 < 3500
    ensures MessagePhaseAt(t1) == Detached ==> MessagePhaseAt(t2) == Detached
    ensures MessagePhaseAt(t2) == Showing ==> MessagePhaseAt(t1) == Showing
  {
  }

  /** The node id of a message. */
  function MessageId(m: Message): nat {
    m.id
  }

  /** A message whose exit animation has been set. */
  function StartLeaving(m: Message): (r: Message)
    ensures r.leaving && r.id == m.id && r.messageType == m.messageType && r.text == m.text
  {
    m.(leaving := true)
  }

  /** The name field as the key handler sees it: missing, or present and focused or not. */
  datatype InputField = NoInput | Input(focused: bool)

  /** What the homepage `keydown` handler does, in order. */
  datatype HomeAction =
    | PreventDefault  // cancel the key's default action
    | DispatchSubmit  // dispatch a `submit` event at the form
    | ClearInput      // set the field's value to ''
    | FocusInput      // focus the field
    | RefreshButton   // run `updateStartButtonState`

  /**
   * The homepage `keydown` handler: Enter in the focused field submits the
   * form, Escape clears and refocuses the field, `n` or `N` pressed outside
   * the field moves the focus to it, and every other key does nothing.
   */
  function HomeKeyActions(key: string, input: InputField, hasForm: bool): (acts: seq<HomeAction>)
    ensures DispatchSubmit in acts <==> key == "Enter" && input == Input(true) && hasForm
    ensures ClearInput in acts <==> key == "Escape" && input.Input?
    ensures ClearInput in acts ==> acts == [ClearInput, FocusInput, RefreshButton]
    ensures FocusInput in acts <==>
      (key == "Escape" && input.Input?) || ((key == "n" || key == "N") && input == Input(false))
    ensures PreventDefault in acts <==>
      (key == "Enter" && input == Input(true)) || ((key == "n" || key == "N") && input != Input(true))
    ensures RefreshButton in acts <==> ClearInput in acts
    ensures acts == [] <==> !(PreventDefault in acts || ClearInput in acts)
  {
    LowerIsLetter(key, 'n');
    var enter := if key == "Enter" && input == Input(true)
      then [PreventDefault] + (if hasForm then [DispatchSubmit] else []) else [];
    var escape := if key == "Escape" && input.Input? then [ClearInput, FocusInput, RefreshButton] else [];
    var focusKey := if LowerAscii(key) == "n" && input != Input(true)
      then [PreventDefault] + (if input.Input? then [FocusInput] else []) else [];
    enter + escape + focusKey
  }

  /** The label the start button shows. */
  datatype ButtonLabel = StartQuestLabel | LoadingQuestLabel

  /** The start button: its style, whether it is disabled, and its label. */
  datatype StartButton = StartButton(style: ButtonStyle, disabled: bool, caption: ButtonLabel)

  /** The homepage document and its local storage. */
  class HomeDocument {
    const hasForm: bool
    const hasInput: bool
    const hasButton: bool
    const particles: Particles.ParticleLayer
    var value: Utf16String
    var inputFocused: bool
    var button: StartButton
    var storage: map<string, Utf16String>
    var messages: seq<Message>
    var nextMessageId: nat

    /** Only an existing field can hold the focus, and at most one message is ever attached. */
    ghost predicate Valid()
      reads this, particles
    {
      && (inputFocused ==> hasInput)
      && |messages| <= 1
      && (forall m :: m in messages ==> m.id < nextMessageId)
      && particles.Valid()
    }

    /** The submit and input handlers are attached only when the form, the field and the button all exist. */
    predicate FormWired() {
      hasForm && hasInput && hasButton
    }

    function InputView(): (f: InputField)
      reads this
      ensures f.Input? <==> hasInput
      ensures f.Input? ==> f.focused == inputFocused
    {
      if hasInput then Input(inputFocused) else NoInput
    }

    /** The page as loaded: no message, the button not yet styled, the field unfocused. */
    constructor (hasForm: bool, hasInput: bool, hasButton: bool, value: Utf16String, storage: map<string, Utf16String>)
      ensures Valid() && fresh(particles) && particles.live == map[]
      ensures this.hasForm == hasForm && this.hasInput == hasInput && this.hasButton == hasButton
      ensures this.value == value && this.storage == storage && !inputFocused
      ensures button == StartButton(Unstyled, false, StartQuestLabel) && messages == []
    {
      this.hasForm, this.hasInput, this.hasButton := hasForm, hasInput, hasButton;
      this.value, this.storage := value, storage;
      inputFocused := false;
      button := StartButton(Unstyled, false, StartQuestLabel);
      messages, nextMessageId := [], 0;
      particles := new Particles.ParticleLayer();
    }

    /** `updateStartButtonState`: restyle the button from the field, when both exist. */
    method UpdateStartButtonState()
      requires Valid()
      modifies this`button
      ensures Valid()
      ensures button == if hasInput && hasButton then old(button).(style := StartButtonStyle(value)) else old(button)
    {
      if hasInput && hasButton {
        button := button.(style := StartButtonStyle(value));
      }
    }

    /** The `input` event: the browser puts `typed` in the field, then the handler sanitises it and restyles the button. */
    method OnInput(typed: Utf16String)
      requires Valid() && hasInput
      modifies this`value, this`button
      ensures Valid()
      ensures value == if FormWired() then Sanitise(typed) else typed
      ensures button == if FormWired() then old(button).(style := StartButtonStyle(value)) else old(button)
    {
      value := typed;
      if FormWired() {
        value := Sanitise(value);
        UpdateStartButtonState();
      }
    }

    /**
     * The user moves the focus: into the name field (by clicking or tabbing
     * to it), or away from it. Only an existing field can take the focus.
     */
    method FocusChanged(focused: bool)
      requires Valid() && (focused ==> hasInput)
      modifies this`inputFocused
      ensures Valid() && inputFocused == focused
      ensures InputView() == if hasInput then Input(focused) else NoInput
    {
      inputFocused := focused;
    }

    /** `showMessage`: detach every existing message, then attach the new one (type `info` by default). */
    method ShowMessage(text: MessageText, messageType: Option<string>) returns (id: nat)
      requires Valid()
      modifies this`messages, this`nextMessageId
      ensures Valid()
      ensures id == old(nextMessageId) && nextMessageId == id + 1
      ensures messages == [Message(id, messageType.GetOr("info"), text, false)]
    {
      var existing := messages;
      assert IdsIncreasing(existing, MessageId);
      var i := 0;
      while i < |existing|
        invariant 0 <= i <= |existing|
        invariant messages == existing[i..]
        invariant IdsIncreasing(messages, MessageId)
        invariant nextMessageId == old(nextMessageId)
      {
        DetachAt(messages, MessageId, 0);
        SuffixKeepsIncreasing(messages, MessageId);
        messages := Detach(messages, MessageId, existing[i].id);
        i := i + 1;
      }
      id := nextMessageId;
      nextMessageId := nextMessageId + 1;
      messages := messages + [Message(id, messageType.GetOr("info"), text, false)];
    }

    /** The first timer of message `id` (`MessageExitDelayMs` after it was shown): start its exit animation. */
    method BeginMessageExit(id: nat)
      requires Valid()
      modifies this`messages
      ensures Valid()
      ensures messages == Restyle(old(messages), MessageId, id, StartLeaving)
    {
      messages := Restyle(messages, MessageId, id, StartLeaving);
    }

    /** The second timer of message `id` (`MessageRemovalDelayMs` later): remove it if it is still attached. */
    method ExpireMessage(id: nat)
      requires Valid()
      modifies this`messages
      ensures Valid()
      ensures messages == Detach(old(messages), MessageId, id)
      ensures (forall m :: m in old(messages) ==> m.id != id) ==> messages == old(messages)
    {
      if forall m :: m in messages ==> m.id != id {
        DetachAbsent(messages, MessageId, id);
      }
      messages := Detach(messages, MessageId, id);
    }

    /**
     * One 15-second tick of the motivational ticker. `fires` is the 10% draw
     * and `line` the line drawn; a line is shown only when no message is attached.
     */
    method MotivationalTick(fires: bool, line: nat)
      requires Valid() && line < MotivationalLineCount
      modifies this`messages, this`nextMessageId
      ensures Valid()
      ensures fires && old(messages) == [] ==>
        messages == [Message(old(nextMessageId), "info", MotivationalText(line), false)]
        && nextMessageId == old(nextMessageId) + 1
      ensures !(fires && old(messages) == []) ==> messages == old(messages) && nextMessageId == old(nextMessageId)
    {
      if fires && messages == [] {
        var _ := ShowMessage(MotivationalText(line), Some("info"));
      }
    }

    /**
     * The state the submit handler leaves, from the field value `v`, storage
     * `s0`, next message id `id0`, button `b0`, focus `f0` and messages `ms0`
     * it started from.
     */
    ghost predicate SubmitPost(v: Utf16String, s0: map<string, Utf16String>, id0: nat, b0: StartButton, f0: bool, ms0: seq<Message>)
      reads this
    {
      if !FormWired() then
        storage == s0 && nextMessageId == id0 && button == b0 && inputFocused == f0 && messages == ms0
      else
        && nextMessageId == id0 + 1
        && match CheckName(v)
           case TooShort =>
             storage == s0 && messages == [Message(id0, "warning", NameTooShortText, false)] && inputFocused && button == b0
           case TooLong =>
             storage == s0 && messages == [Message(id0, "warning", NameTooLongText, false)] && inputFocused && button == b0
           case Accepted(name) =>
             && storage == s0[StorageKey := name]
             && messages == [Message(id0, "success", WelcomeText(name), false)]
             && inputFocused == f0
             && button == b0.(disabled := true, caption := LoadingQuestLabel)
    }

    /**
     * The `submit` event: a trimmed value shorter than 2 gives the first
     * warning, one longer than 20 the second, and only a name of 2 to 20
     * units is stored, welcomed and the button disabled.
     */
    method OnSubmit()
      requires Valid()
      modifies this`storage, this`messages, this`nextMessageId, this`button, this`inputFocused
      ensures Valid()
      ensures SubmitPost(old(value), old(storage), old(nextMessageId), old(button), old(inputFocused), old(messages))
    {
      if !FormWired() {
        return;
      }
      var check := CheckName(value);
      match check
      case TooShort =>
        var _ := ShowMessage(NameTooShortText, Some("warning"));
        inputFocused := true;
      case TooLong =>
        var _ := ShowMessage(NameTooLongText, Some("warning"));
        inputFocused := true;
      case Accepted(name) =>
        storage := storage[StorageKey := name];
        var _ := ShowMessage(WelcomeText(name), Some("success"));
        button := button.(disabled := true, caption := LoadingQuestLabel);
    }

    /** The `keydown` event, carrying out what `HomeKeyActions` decides. */
    method OnKeyDown(key: string)
      requires Valid()
      modifies this`value, this`storage, this`messages, this`nextMessageId, this`button, this`inputFocused
      ensures Valid()
      ensures var acts := HomeKeyActions(key, old(InputView()), hasForm);
        && (DispatchSubmit in acts ==>
              value == old(value)
              && SubmitPost(old(value), old(storage), old(nextMessageId), old(button), old(inputFocused), old(messages)))
        && (ClearInput in acts ==>
              && value == [] && inputFocused
              && button == (if hasButton then old(button).(style := StartButtonStyle([])) else old(button))
              && storage == old(storage) && messages == old(messages) && nextMessageId == old(nextMessageId))
        && (DispatchSubmit !in acts && ClearInput !in acts ==>
              && value == old(value) && button == old(button) && storage == old(storage)
              && messages == old(messages) && nextMessageId == old(nextMessageId)
              && inputFocused == (old(inputFocused) || FocusInput in acts))
    {
      var acts := HomeKeyActions(key, InputView(), hasForm);
      if DispatchSubmit in acts {
        OnSubmit();
      }
      if ClearInput in acts {
        value := [];
      }
      if FocusInput in acts {
        inputFocused := true;
      }
      if RefreshButton in acts {
        UpdateStartButtonState();
      }
    }

    /**
     * The timer that ends the start transition (3000 ms after
     * `startGameTransition`, which runs 2000 ms after an accepted submit):
     * a success message replaces whatever message is attached, and the start
     * button, when there is one, is enabled again with its first label. The
     * stored name, the field and the button's style stay as they are.
     */
    method TransitionEnds() returns (id: nat)
      requires Valid()
      modifies this`messages, this`nextMessageId, this`button
      ensures Valid()
      ensures id == old(nextMessageId) && nextMessageId == id + 1
      ensures messages == [Message(id, "success", GameStartText, false)]
      ensures button == if hasButton then old(button).(disabled := false, caption := StartQuestLabel) else old(button)
      ensures button.style == old(button).style
    {
      id := ShowMessage(GameStartText, Some("success"));
      if hasButton {
        button := button.(disabled := false, caption := StartQuestLabel);
      }
    }

    /** `clearPlayerData`: forget the stored name and empty the field. */
    method ClearPlayerData()
      requires Valid()
      modifies this`storage, this`value, this`button
      ensures Valid()
      ensures storage == old(storage) - {StorageKey}
      ensures value == if hasInput then [] else old(value)
      ensures button == if hasInput && hasButton then old(button).(style := StartButtonStyle([])) else old(button)
    {
      storage := storage - {StorageKey};
      if hasInput {
        value := [];
        UpdateStartButtonState();
      }
    }

    /**
     * `createClickParticles`: eight particles, angle indices 0 to 7, the one
     * at index `i` started at clock reading `clock[i]`.
     */
    method CreateClickParticles(clock: seq<int>) returns (ids: seq<nat>)
      requires Valid() && |clock| == HomepageBurstSize
      modifies particles
      ensures Valid()
      ensures |ids| == HomepageBurstSize
      ensures forall i :: 0 <= i < HomepageBurstSize ==>
        ids[i] !in old(particles.live) && ids[i] in particles.live
        && particles.live[ids[i]] == Particles.Particle(i, HomepageBurstSize, clock[i], 0)
      ensures forall id :: id in old(particles.live) ==> id in particles.live && particles.live[id] == old(particles.live)[id]
      ensures particles.live.Keys == old(particles.live.Keys) + set i | 0 <= i < HomepageBurstSize :: ids[i]
      ensures particles.nextId == old(particles.nextId) + HomepageBurstSize && particles.removed == old(particles.removed)
    {
      ids := particles.Burst(clock);
    }
  }
}

=== FILE: keys.dfy ===
/**
 * `KeyboardEvent.key` values and the `toLowerCase` the keyboard handlers apply
 * to them before comparing.
 *
 * Only ASCII letters are lowered here. The handlers compare the lowered key
 * with "n", "p", "h", "escape" and the digits; no character outside ASCII has
 * a lower-case form made of those letters (the only non-ASCII characters that
 * lower-case to ASCII letters are KELVIN SIGN, to "k", and LATIN CAPITAL LETTER
 * I WITH DOT ABOVE, to "i" plus a combining dot), so every comparison comes out
 * as it does with full Unicode case mapping.
 */
module Keys {

  function LowerChar(c: char): (r: char)
    ensures 'A' <= c <= 'Z' ==> r as int == c as int + 32
    ensures !('A' <= c <= 'Z') ==> r == c
  {
    if 'A' <= c <= 'Z' then (c as int + 32) as char else c
  }

  /** `key.toLowerCase()` on the letters that matter to the handlers. */
  function LowerAscii(key: string): (r: string)
    ensures |r| == |key|
    ensures forall i :: 0 <= i < |key| ==> r[i] == LowerChar(key[i])
  {
    seq(|key|, i requires 0 <= i < |key| => LowerChar(key[i]))
  }

  /** A single lower-case ASCII letter is reached from exactly two keys: itself and its capital. */
  lemma LowerIsLetter(key: string, lower: char)
    requires 'a' <= lower <= 'z'
    ensures LowerAscii(key) == [lower] <==> key == [lower] || key == [(lower as int - 32) as char]
  {
    if LowerAscii(key) == [lower] {
      assert LowerAscii(key)[0] == LowerChar(key[0]);
    }
  }

  /** A digit is lowered from the digit alone. */
  lemma LowerIsDigit(key: string, digit: char)
    requires '0' <= digit <= '9'
    ensures LowerAscii(key) == [digit] <==> key == [digit]
  {
    if LowerAscii(key) == [digit] {
      assert LowerAscii(key)[0] == LowerChar(key[0]);
    }
  }
}

=== FILE: palette.dfy ===
/** The background gradients shared by the homepage messages and the game toasts. */
module Palette {

  const SuccessGradient := "linear-gradient(45deg, #4CAF50, #8BC34A)"
  const WarningGradient := "linear-gradient(45deg, #FF9800, #FFC107)"
  const ErrorGradient := "linear-gradient(45deg, #F44336, #E91E63)"
  const InfoGradient := "linear-gradient(45deg, #2196F3, #03DAC6)"

  /** The four gradients are distinct, so a background tells its kind apart. */
  lemma GradientsDistinct()
    ensures SuccessGradient != WarningGradient && SuccessGradient != ErrorGradient
    ensures SuccessGradient != InfoGradient && WarningGradient != ErrorGradient
    ensures WarningGradient != InfoGradient && ErrorGradient != InfoGradient
  {
    assert SuccessGradient[24] == '4' && InfoGradient[24] == '2';
    assert WarningGradient[25] == 'F' && ErrorGradient[25] == '4';
    assert WarningGradient[24] == 'F' && ErrorGradient[24] == 'F';
  }
}

=== FILE: particles.dfy ===
/**
 * The click-particle lifecycle shared by both pages (`createClickParticles`
 * in script.js and `createClickParticles`/`animateParticle` in game-ui.js),
 * with positions, colours, sizes and velocities abstracted away. The clock
 * (`Date.now()`) and the animation-frame scheduler are explicit: each frame
 * callback is an event carrying the clock reading.
 */
module Particles {

  /** Both handlers give a particle 1000 ms of life. */
  const LifetimeMs := 1000

  /**
   * A particle node: its index `i` in its burst (its direction is
   * 2*pi*i/burstSize), the clock reading its animation started from, and how
   * many frames have restyled it.
   */
  datatype Particle = Particle(angleIndex: nat, burstSize: nat, startTime: int, updates: nat)

  /**
   * The test `elapsed / life >= 1`. The clock reads whole milliseconds and
   * dividing by 1000 in double precision is below 1 for every whole number
   * below 1000, so the test is exactly `elapsed >= 1000`.
   */
  predicate Expired(startTime: int, now: int) {
    now - startTime >= LifetimeMs
  }

  /** What one run of a particle's frame callback does. */
  datatype FrameOutcome =
    | Updated  // restyled and rescheduled
    | Removed  // detached from the body, not rescheduled
    | Idle     // no callback of this particle is waiting: nothing runs

  /**
   * What a particle's callback chain does at each of a run of frames, given
   * the clock reading at each: it restyles until the first expired reading,
   * removes the node there, and is gone afterwards.
   */
  function Trace(startTime: int, frames: seq<int>): (r: seq<FrameOutcome>)
    ensures |r| == |frames|
    ensures r != [] ==> (r[0] == Removed <==> Expired(startTime, frames[0]))
  {
    if frames == [] then []
    else if Expired(startTime, frames[0]) then [Removed] + seq(|frames| - 1, _ => Idle)
    else [Updated] + Trace(startTime, frames[1..])
  }

  /**
   * The particle is removed at frame `k` exactly when `k` is the first frame
   * whose reading is expired, it is restyled at `k` exactly when no reading up
   * to `k` is expired, and nothing happens to it after its removal.
   */
  lemma {:induction false} TraceRemovesAtFirstExpiry(startTime: int, frames: seq<int>, k: nat)
    requires k < |frames|
    ensures Trace(startTime, frames)[k] == Removed <==>
      Expired(startTime, frames[k]) && forall j :: 0 <= j < k ==> !Expired(startTime, frames[j])
    ensures Trace(startTime, frames)[k] == Updated <==>
      forall j :: 0 <= j <= k ==> !Expired(startTime, frames[j])
    ensures Trace(startTime, frames)[k] == Idle <==>
      exists j :: 0 <= j < k && Expired(startTime, frames[j])
  {
    var r := Trace(startTime, frames);
    if Expired(startTime, frames[0]) {
      if k > 0 {
        assert r[k] == Idle;
        assert Expired(startTime, frames[0]);
      }
    } else if k > 0 {
      TraceRemovesAtFirstExpiry(startTime, frames[1..], k - 1);
      assert r[k] == Trace(startTime, frames[1..])[k - 1];
      assert forall j :: 1 <= j <= k ==> frames[j] == frames[1..][j - 1];
      if r[k] == Idle {
        var j :| 0 <= j < k - 1 && Expired(startTime, frames[1..][j]);
        assert Expired(startTime, frames[j + 1]);
      }
      if exists j :: 0 <= j < k && Expired(startTime, frames[j]) {
        var j :| 0 <= j < k && Expired(startTime, frames[j]);
        assert j > 0 && Expired(startTime, frames[1..][j - 1]);
      }
    }
  }

  /** A particle is removed at most once in any run of frames. */
  lemma RemovedAtMostOnce(startTime: int, frames: seq<int>, j: nat, k: nat)
    requires j < |frames| && k < |frames|
    requires Trace(startTime, frames)[j] == Removed && Trace(startTime, frames)[k] == Removed
    ensures j == k
  {
    TraceRemovesAtFirstExpiry(startTime, frames, j);
    TraceRemovesAtFirstExpiry(startTime, frames, k);
  }

  /**
   * The particle nodes attached to the document body and the frame callbacks
   * waiting for them.
   */
  class ParticleLayer {
    /** The attached particle nodes, by node id. */
    var live: map<nat, Particle>
    /** The nodes whose frame callback is waiting to run. */
    var pending: set<nat>
    /** The id the next node created gets. */
    var nextId: nat
    /** Every removal so far, oldest first. */
    ghost var removed: seq<nat>

    /**
     * Every attached node has exactly one waiting callback and a removed node
     * has none; ids are never reused, so a removed node stays removed and is
     * removed once.
     */
    ghost predicate Valid()
      reads this
    {
      && pending == live.Keys
      && (forall id | id in live :: id < nextId)
      && (forall k | 0 <= k < |removed| :: removed[k] < nextId && removed[k] !in live)
      && (forall j, k | 0 <= j < k < |removed| :: removed[j] != removed[k])
    }

    constructor ()
      ensures Valid() && live == map[] && pending == {} && removed == []
    {
      live, pending, nextId, removed := map[], {}, 0, [];
    }

    /**
     * The loop of `createClickParticles`: create one node per clock reading in
     * `clock` (each particle reads the clock when its animation starts), the
     * one made at step `i` with angle index `i`, attach each to the body and
     * request its first frame.
     */
    method Burst(clock: seq<int>) returns (ids: seq<nat>)
      requires Valid()
      modifies this
      ensures Valid()
      ensures |ids| == |clock|
      ensures forall i :: 0 <= i < |clock| ==> ids[i] == old(nextId) + i && ids[i] !in old(live)
      ensures forall i :: 0 <= i < |clock| ==>
        ids[i] in live && live[ids[i]] == Particle(i, |clock|, clock[i], 0)
      ensures live.Keys == old(live.Keys) + set i | 0 <= i < |clock| :: ids[i]
      ensures forall id :: id in old(live) ==> live[id] == old(live)[id]
      ensures nextId == old(nextId) + |clock| && removed == old(removed)
    {
      ids := [];
      for i := 0 to |clock|
        invariant Valid()
        invariant nextId == old(nextId) + i && removed == old(removed)
        invariant |ids| == i
        invariant forall j :: 0 <= j < i ==> ids[j] == old(nextId) + j
        invariant forall j :: 0 <= j < i ==> ids[j] in live && live[ids[j]] == Particle(j, |clock|, clock[j], 0)
        invariant live.Keys == old(live.Keys) + set j | 0 <= j < i :: ids[j]
        invariant forall id :: id in old(live) ==> id in live && live[id] == old(live)[id]
      {
        var id := nextId;
        live := live[id := Particle(i, |clock|, clock[i], 0)];
        pending := pending + {id};
        nextId := nextId + 1;
        ids := ids + [id];
      }
    }

    /**
     * One run of node `id`'s frame callback at clock reading `now`. Expired:
     * the node is detached and no frame is requested. Otherwise it is
     * restyled and requests the next frame. A node without a waiting callback
     * (one already removed) is never touched.
     */
    method Frame(id: nat, now: int) returns (outcome: FrameOutcome)
      requires Valid()
      modifies this
      ensures Valid() && nextId == old(nextId)
      ensures id !in old(pending) ==> outcome == Idle && unchanged(this)
      ensures id in old(removed) ==> outcome == Idle
      ensures id in old(pending) && Expired(old(live)[id].startTime, now) ==>
        && outcome == Removed
        && live == old(live) - {id}
        && removed == old(removed) + [id]
      ensures id in old(pending) && !Expired(old(live)[id].startTime, now) ==>
        && outcome == Updated
        && live == old(live)[id := old(live)[id].(updates := old(live)[id].updates + 1)]
        && removed == old(removed)
    {
      if id !in pending {
        return Idle;
      }
      var p := live[id];
      if Expired(p.startTime, now) {
        live := live - {id};
        pending := pending - {id};
        removed := removed + [id];
        outcome := Removed;
      } else {
        live := live[id := p.(updates := p.updates + 1)];
        outcome := Updated;
      }
    }

    /**
     * Node `id`'s callback chain run over successive frames, the one at step
     * `k` with clock reading `frames[k]`: it does exactly what `Trace`
     * describes, and no other node is touched.
     */
    method RunFrames(id: nat, frames: seq<int>) returns (outcomes: seq<FrameOutcome>)
      requires Valid()
      modifies this
      ensures Valid() && nextId == old(nextId)
      ensures id in old(pending) ==> outcomes == Trace(old(live)[id].startTime, frames)
      ensures id !in old(pending) ==> |outcomes| == |frames| && forall k :: 0 <= k < |frames| ==> outcomes[k] == Idle
      ensures forall other :: other != id ==> (other in live <==> other in old(live))
      ensures forall other :: other != id && other in live ==> live[other] == old(live)[other]
      ensures id in live <==>
        id in old(pending) && forall k :: 0 <= k < |frames| ==> !Expired(old(live)[id].startTime, frames[k])
      ensures removed == old(removed) + if id in live || id !in old(pending) then [] else [id]
    {
      ghost var wasPending := id in pending;
      ghost var start := if wasPending then live[id].startTime else 0;
      outcomes := [];
      for i := 0 to |frames|
        invariant Valid() && nextId == old(nextId)
        invariant |outcomes| == i
        invariant wasPending ==> forall k :: 0 <= k < i ==> outcomes[k] == Trace(start, frames)[k]
        invariant wasPending ==> (id in pending <==> forall j :: 0 <= j < i ==> !Expired(start, frames[j]))
        invariant !wasPending ==> id !in pending && forall k :: 0 <= k < i ==> outcomes[k] == Idle
        invariant id in pending ==> live[id].startTime == start
        invariant removed == old(removed) + if id in pending || !wasPending then [] else [id]
        invariant forall other :: other != id ==> (other in live <==> other in old(live))
        invariant forall other :: other != id && other in live ==> live[other] == old(live)[other]
      {
        if wasPending {
          TraceRemovesAtFirstExpiry(start, frames, i);
        }
        var o := Frame(id, frames[i]);
        outcomes := outcomes + [o];
      }
    }
  }
}

=== FILE: player_name.dfy ===
/**
 * The player-name pipeline of the homepage (script.js): the `input` handler's
 * sanitiser, the submit validator, the start-button predicate and the stored
 * name read back by `getPlayerName`.
 */
module PlayerName {
  import opened Utf16
  import opened Sequences

  /** The longest name the input handler keeps and the submit validator accepts. */
  const MaxNameLength := 20
  /** The shortest trimmed name the submit validator accepts and the button allows. */
  const MinNameLength := 2
  /** The local-storage key under which an accepted name is stored. */
  const StorageKey := "mathQuestPlayerName"
  /** The name reported when none is stored. */
  const DefaultName: Utf16String := FromBmp("Anonymous Hero")

  /**
   * A code unit the sanitiser keeps: an ASCII letter or digit, white space,
   * `-` or `_` (the complement of the class `[^a-zA-Z0-9\s\-_]`; without the
   * `u` flag the class is matched code unit by code unit).
   */
  predicate IsNameUnit(c: CodeUnit) {
    var n := c as int;
    || 'a' as int <= n <= 'z' as int
    || 'A' as int <= n <= 'Z' as int
    || '0' as int <= n <= '9' as int
    || IsWhiteSpace(c)
    || n == '-' as int
    || n == '_' as int
  }

  /** What `replace(/[^a-zA-Z0-9\s\-_]/g, '')` leaves: the name units of `s`, in order. */
  function KeepNameUnits(s: Utf16String): (r: Utf16String)
    ensures |r| <= |s|
    ensures forall i :: 0 <= i < |r| ==> IsNameUnit(r[i])
  {
    if s == [] then []
    else if IsNameUnit(s[0]) then [s[0]] + KeepNameUnits(s[1..])
    else KeepNameUnits(s[1..])
  }

  /** The filter deletes units and never reorders: its result is a subsequence of its input. */
  lemma {:induction false} KeepNameUnitsIsSubsequence(s: Utf16String)
    ensures IsSubsequence(KeepNameUnits(s), s)
  {
    if s != [] {
      KeepNameUnitsIsSubsequence(s[1..]);
      if IsNameUnit(s[0]) {
        assert KeepNameUnits(s)[1..] == KeepNameUnits(s[1..]);
      } else {
        SubsequenceExtend(KeepNameUnits(s[1..]), s[0], s[1..]);
        assert [s[0]] + s[1..] == s;
      }
    }
  }

  /** The filter keeps every occurrence of every name unit and no occurrence of anything else. */
  lemma {:induction false} KeepNameUnitsCounts(s: Utf16String, c: CodeUnit)
    ensures multiset(KeepNameUnits(s))[c] == if IsNameUnit(c) then multiset(s)[c] else 0
  {
    if s != [] {
      KeepNameUnitsCounts(s[1..], c);
      assert s == [s[0]] + s[1..];
      assert multiset(s) == multiset([s[0]]) + multiset(s[1..]);
    }
  }

  /** The filter leaves a string unchanged exactly when it holds only name units. */
  lemma {:induction false} KeepNameUnitsFixed(s: Utf16String)
    ensures KeepNameUnits(s) == s <==> forall i :: 0 <= i < |s| ==> IsNameUnit(s[i])
  {
    if s != [] {
      KeepNameUnitsFixed(s[1..]);
      if IsNameUnit(s[0]) {
        assert forall i :: 1 <= i < |s| ==> s[i] == s[1..][i - 1];
      } else {
        assert |KeepNameUnits(s)| <= |s[1..]| < |s|;
      }
    }
  }

  /**
   * The `input` handler's rewrite of the field: drop every unit outside the
   * name alphabet, then cut to the first 20 units.
   */
  function Sanitise(raw: Utf16String): (r: Utf16String)
    ensures |r| <= MaxNameLength
    ensures forall i :: 0 <= i < |r| ==> IsNameUnit(r[i]) && !IsSurrogate(r[i])
    ensures |r| == if |KeepNameUnits(raw)| <= MaxNameLength then |KeepNameUnits(raw)| else MaxNameLength
    ensures r == KeepNameUnits(raw)[..|r|]
  {
    var value := KeepNameUnits(raw);
    if |value| > MaxNameLength then value[..MaxNameLength] else value
  }

  /** The sanitised value keeps the order of what was typed: it is a subsequence of it. */
  lemma SanitiseIsSubsequence(raw: Utf16String)
    ensures IsSubsequence(Sanitise(raw), raw)
  {
    var f := KeepNameUnits(raw);
    SliceIsSubsequence(f, 0, |Sanitise(raw)|);
    KeepNameUnitsIsSubsequence(raw);
    SubsequenceTransitive(Sanitise(raw), f, raw);
  }

  /** Whenever the filtered string is 20 units or shorter, the cut changes nothing. */
  lemma SanitiseShortIsFiltered(raw: Utf16String)
    requires |KeepNameUnits(raw)| <= MaxNameLength
    ensures Sanitise(raw) == KeepNameUnits(raw)
  {
  }

  /** Running the input handler on its own output leaves the field as it is. */
  lemma SanitiseIdempotent(raw: Utf16String)
    ensures Sanitise(Sanitise(raw)) == Sanitise(raw)
  {
    KeepNameUnitsFixed(Sanitise(raw));
  }

  /** The submit handler's verdict on the field value. */
  datatype NameCheck =
    | TooShort                    // "at least 2 characters" warning
    | TooLong                     // "Name too long" warning
    | Accepted(name: Utf16String) // stored, welcomed, button disabled

  /**
   * The submit validator: trim, then test the minimum length first and the
   * maximum second; a name that passes both is the trimmed value.
   */
  function CheckName(value: Utf16String): (r: NameCheck)
    ensures r == TooShort <==> |Trim(value)| < MinNameLength
    ensures r == TooLong <==> MinNameLength <= |Trim(value)| && |Trim(value)| > MaxNameLength
    ensures r.Accepted? <==> MinNameLength <= |Trim(value)| <= MaxNameLength
    ensures r.Accepted? ==> r.name == Trim(value)
  {
    var name := Trim(value);
    if |name| < MinNameLength then TooShort
    else if |name| > MaxNameLength then TooLong
    else Accepted(name)
  }

  /** An accepted name has no white space at either end and fits the length bounds. */
  lemma AcceptedNameIsTrimmed(value: Utf16String)
    requires CheckName(value).Accepted?
    ensures var n := CheckName(value).name;
      MinNameLength <= |n| <= MaxNameLength && !IsWhiteSpace(n[0]) && !IsWhiteSpace(n[|n| - 1]) && Trim(n) == n
  {
  }

  /** A value the input handler produced is never too long: the second warning cannot follow typing. */
  lemma SanitisedNameNeverTooLong(raw: Utf16String)
    ensures CheckName(Sanitise(raw)) != TooLong
  {
    var v := Sanitise(raw);
    assert |Trim(v)| <= |v| <= MaxNameLength;
  }

  /** The name accepted from a sanitised value is made of name units taken, in order, from what was typed. */
  lemma SanitisedNameFromTyped(raw: Utf16String)
    requires CheckName(Sanitise(raw)).Accepted?
    ensures var n := CheckName(Sanitise(raw)).name;
      (forall i :: 0 <= i < |n| ==> IsNameUnit(n[i])) && IsSubsequence(n, raw)
  {
    var v := Sanitise(raw);
    var n := Trim(v);
    TrimUnitsFromSource(v);
    TrimIsSubsequence(v);
    SanitiseIsSubsequence(raw);
    SubsequenceTransitive(n, v, raw);
  }

  /** `updateStartButtonState`'s test: the trimmed value has at least two units. */
  function StartButtonEnabled(value: Utf16String): (enabled: bool)
    ensures enabled <==> CheckName(value) != TooShort
  {
    |Trim(value)| >= MinNameLength
  }

  /** The three style properties `updateStartButtonState` writes; `Unstyled` before its first run. */
  datatype ButtonStyle =
    | Unstyled
    | Styled(opacityPercent: nat, pointerEvents: bool, scalePercent: nat)

  /** Opacity 1, pointer events on and scale 1 when enabled; opacity 0.6, none and 0.95 otherwise. */
  function StartButtonStyle(value: Utf16String): (style: ButtonStyle)
    ensures style.Styled?
    ensures style.pointerEvents <==> StartButtonEnabled(value)
    ensures style.opacityPercent == 100 <==> StartButtonEnabled(value)
    ensures style.pointerEvents ==> style.opacityPercent == 100 && style.scalePercent == 100
    ensures !style.pointerEvents ==> style.opacityPercent == 60 && style.scalePercent == 95
  {
    if StartButtonEnabled(value) then Styled(100, true, 100) else Styled(60, false, 95)
  }

  /** `getPlayerName`: the stored name, or the default when the key is absent or holds the empty string. */
  function GetPlayerName(storage: map<string, Utf16String>): (name: Utf16String)
    ensures name != []
    ensures StorageKey in storage && storage[StorageKey] != [] ==> name == storage[StorageKey]
    ensures StorageKey !in storage || storage[StorageKey] == [] ==> name == DefaultName
  {
    if StorageKey in storage && storage[StorageKey] != [] then storage[StorageKey] else DefaultName
  }

  /** A name the submit handler stored is the name read back. */
  lemma StoredNameReadBack(storage: map<string, Utf16String>, value: Utf16String)
    requires CheckName(value).Accepted?
    ensures GetPlayerName(storage[StorageKey := CheckName(value).name]) == CheckName(value).name
  {
  }

  /** After `clearPlayerData` removed the key, the default name is read back. */
  lemma ClearedNameIsDefault(storage: map<string, Utf16String>)
    ensures GetPlayerName(storage - {StorageKey}) == DefaultName
  {
  }
}

=== FILE: sequences.dfy ===
/** Subsequences: what is left of a sequence after deleting some of its elements. */
module Sequences {

  /**
   * `a` occurs in `b` in order, possibly with gaps: `a` is what is left of `b`
   * after deleting some of its elements.
   */
  predicate IsSubsequence<T(==)>(a: seq<T>, b: seq<T>)
    decreases |b|
  {
    if a == [] then true
    else if b == [] then false
    else if a[0] == b[0] then IsSubsequence(a[1..], b[1..])
    else IsSubsequence(a, b[1..])
  }

  /** Putting one more element in front of `b` keeps every subsequence of `b`. */
  lemma {:induction false} SubsequenceExtend<T>(a: seq<T>, x: T, b: seq<T>)
    requires IsSubsequence(a, b)
    ensures IsSubsequence(a, [x] + b)
    decreases |b|, 1
  {
    if a != [] && a[0] == x {
      assert ([x] + b)[1..] == b;
      SubsequenceDropHead(a, b);
    } else {
      assert ([x] + b)[1..] == b;
    }
  }

  /** Deleting the first element of a subsequence leaves a subsequence. */
  lemma {:induction false} SubsequenceDropHead<T>(a: seq<T>, b: seq<T>)
    requires a != [] && IsSubsequence(a, b)
    ensures IsSubsequence(a[1..], b)
    decreases |b|, 0
  {
    assert b != [];
    if a[0] == b[0] {
      assert IsSubsequence(a[1..], b[1..]);
      SubsequenceExtend(a[1..], b[0], b[1..]);
      assert [b[0]] + b[1..] == b;
    } else {
      SubsequenceDropHead(a, b[1..]);
      SubsequenceExtend(a[1..], b[0], b[1..]);
      assert [b[0]] + b[1..] == b;
    }
  }

  /** Being a subsequence is transitive. */
  lemma {:induction false} SubsequenceTransitive<T>(a: seq<T>, b: seq<T>, c: seq<T>)
    requires IsSubsequence(a, b) && IsSubsequence(b, c)
    ensures IsSubsequence(a, c)
    decreases |c|
  {
    if a == [] {
    } else {
      assert b != [] && c != [];
      if b[0] == c[0] {
        if a[0] == b[0] {
          SubsequenceTransitive(a[1..], b[1..], c[1..]);
        } else {
          SubsequenceTransitive(a, b[1..], c[1..]);
          SubsequenceExtend(a, c[0], c[1..]);
          assert [c[0]] + c[1..] == c;
        }
      } else {
        SubsequenceTransitive(a, b, c[1..]);
        SubsequenceExtend(a, c[0], c[1..]);
        assert [c[0]] + c[1..] == c;
      }
    }
  }

  /** Every contiguous slice of a sequence is a subsequence of it. */
  lemma {:induction false} SliceIsSubsequence<T>(s: seq<T>, i: nat, j: nat)
    requires i <= j <= |s|
    ensures IsSubsequence(s[i..j], s)
    decreases |s|
  {
    if i == j {
    } else if i > 0 {
      SliceIsSubsequence(s[1..], i - 1, j - 1);
      assert s[1..][i - 1..j - 1] == s[i..j];
      SubsequenceExtend(s[i..j], s[0], s[1..]);
      assert [s[0]] + s[1..] == s;
    } else {
      SliceIsSubsequence(s[1..], 0, j - 1);
      assert s[1..][0..j - 1] == s[0..j][1..];
    }
  }
}

=== FILE: utf16.dfy ===
/**
 * JavaScript strings as the browser keeps them: sequences of UTF-16 code units.
 * White space is the ECMAScript one (WhiteSpace, clause 12.2 of the ECMAScript
 * Language Specification, and LineTerminator, clause 12.3): the set matched by
 * the regular-expression class `\s` and removed by `String.prototype.trim`.
 */
module Utf16 {
  import opened Sequences

  /** One UTF-16 code unit. A lone surrogate half is a code unit like any other. */
  newtype CodeUnit = c: int | 0 <= c < 0x1_0000

  type Utf16String = seq<CodeUnit>

  /** WhiteSpace (TAB, VT, FF, SP, NBSP, ZWNBSP and the Zs category) or LineTerminator (LF, CR, LS, PS). */
  predicate IsWhiteSpace(c: CodeUnit) {
    || c == 0x0009 || c == 0x000B || c == 0x000C || c == 0x0020 || c == 0x00A0 || c == 0xFEFF
    || c == 0x1680 || 0x2000 <= c <= 0x200A || c == 0x202F || c == 0x205F || c == 0x3000
    || c == 0x000A || c == 0x000D || c == 0x2028 || c == 0x2029
  }

  /** Either half of a surrogate pair (a code point above U+FFFF takes two code units). */
  predicate IsSurrogate(c: CodeUnit) {
    0xD800 <= c <= 0xDFFF
  }

  /** The code unit of a character of the Basic Multilingual Plane. */
  function Unit(ch: char): (c: CodeUnit)
    requires ch as int < 0x1_0000
    ensures c as int == ch as int
  {
    ch as int as CodeUnit
  }

  /** The UTF-16 form of a string whose characters all lie in the Basic Multilingual Plane. */
  function FromBmp(s: string): (r: Utf16String)
    requires forall i :: 0 <= i < |s| ==> s[i] as int < 0x1_0000
    ensures |r| == |s|
    ensures forall i :: 0 <= i < |s| ==> r[i] as int == s[i] as int
  {
    seq(|s|, i requires 0 <= i < |s| => Unit(s[i]))
  }

  /** How many code units `String.prototype.trim` removes from the front of `s`. */
  function TrimOffset(s: Utf16String): (k: nat)
    ensures k <= |s|
    ensures forall i :: 0 <= i < k ==> IsWhiteSpace(s[i])
    ensures k == |s| || !IsWhiteSpace(s[k])
  {
    if s == [] || !IsWhiteSpace(s[0]) then 0
    else
      var k := TrimOffset(s[1..]);
      assert forall i :: 1 <= i < 1 + k ==> s[i] == s[1..][i - 1];
      1 + k
  }

  /** How many code units `String.prototype.trim` removes from the back of `s`. */
  function TrailingWhiteSpace(s: Utf16String): (m: nat)
    ensures m <= |s|
    ensures forall i :: |s| - m <= i < |s| ==> IsWhiteSpace(s[i])
    ensures m == |s| || !IsWhiteSpace(s[|s| - m - 1])
  {
    if s == [] || !IsWhiteSpace(s[|s| - 1]) then 0
    else
      var m := TrailingWhiteSpace(s[..|s| - 1]);
      assert forall i :: |s| - 1 - m <= i < |s| - 1 ==> s[i] == s[..|s| - 1][i];
      1 + m
  }

  /**
   * `String.prototype.trim`: the slice of `s` left after removing white space
   * at both ends. It starts and ends with a non-white-space unit, it is empty
   * exactly when `s` is all white space, and a string with no white space at
   * either end is its own trim.
   */
  function Trim(s: Utf16String): (r: Utf16String)
    ensures |r| <= |s|
    ensures TrimOffset(s) + |r| <= |s| && r == s[TrimOffset(s)..TrimOffset(s) + |r|]
    ensures forall i :: TrimOffset(s) + |r| <= i < |s| ==> IsWhiteSpace(s[i])
    ensures r == [] || (!IsWhiteSpace(r[0]) && !IsWhiteSpace(r[|r| - 1]))
    ensures r == [] <==> forall i :: 0 <= i < |s| ==> IsWhiteSpace(s[i])
    ensures (s == [] || (!IsWhiteSpace(s[0]) && !IsWhiteSpace(s[|s| - 1]))) ==> r == s
  {
    var k := TrimOffset(s);
    var m := TrailingWhiteSpace(s[k..]);
    TrimSlice(s, k, m);
    s[k..|s| - m]
  }

  /** The facts about the slice between the removed front and the removed back that `Trim` promises. */
  lemma TrimSlice(s: Utf16String, k: nat, m: nat)
    requires k == TrimOffset(s) && m == TrailingWhiteSpace(s[k..])
    ensures var r := s[k..|s| - m];
      && |r| <= |s| && k + |r| <= |s| && r == s[k..k + |r|]
      && (forall i :: k + |r| <= i < |s| ==> IsWhiteSpace(s[i]))
      && (r == [] || (!IsWhiteSpace(r[0]) && !IsWhiteSpace(r[|r| - 1])))
      && (r == [] <==> forall i :: 0 <= i < |s| ==> IsWhiteSpace(s[i]))
      && ((s == [] || (!IsWhiteSpace(s[0]) && !IsWhiteSpace(s[|s| - 1]))) ==> r == s)
  {
    var t := s[k..];
    var r := s[k..|s| - m];
    forall i | |s| - m <= i < |s| ensures IsWhiteSpace(s[i]) {
      assert s[i] == t[i - k];
    }
    if r != [] {
      assert r[|r| - 1] == t[|t| - m - 1];
    }
    if k < |s| {
      assert t[0] == s[k] && m < |t|;
    }
    if s != [] && !IsWhiteSpace(s[0]) && !IsWhiteSpace(s[|s| - 1]) {
      assert k == 0 && t == s;
    }
  }

  /** `Trim` is idempotent: a trimmed string has nothing left to trim. */
  lemma TrimIdempotent(s: Utf16String)
    ensures Trim(Trim(s)) == Trim(s)
  {
  }

  /** Every unit of `Trim(s)` is the unit of `s` at the same place after the removed prefix. */
  lemma TrimUnitsFromSource(s: Utf16String)
    ensures forall i :: 0 <= i < |Trim(s)| ==> Trim(s)[i] == s[TrimOffset(s) + i]
  {
    var k, r := TrimOffset(s), Trim(s);
    assert r == s[k..k + |r|];
  }

  /** `Trim(s)` is a subsequence of `s`. */
  lemma TrimIsSubsequence(s: Utf16String)
    ensures IsSubsequence(Trim(s), s)
  {
    var k, r := TrimOffset(s), Trim(s);
    SliceIsSubsequence(s, k, k + |r|);
  }
}

=== FILE: wrappers.dfy ===
/** The optional value used wherever the browser may hand back "nothing". */
module Wrappers {

  datatype Option<+T> = None | Some(value: T) {

    /** The wrapped value, or `default` when there is none. */
    function GetOr(default: T): T {
      match this
      case Some(v) => v
      case None => default
    }
  }
}
